=== FILE: README.md ===
# Gym tracker workout engine in Dafny

This project models the workout engine of a browser-based gym tracker (`app.js`). The user keeps
routines, each a named, ordered list of exercises with a target number of sets and a rest time.
A routine is run as a guided session: each set is logged with weight and reps, a rest countdown
follows, and then the session moves on to the next set or the next exercise. When the session
finishes, it goes to the front of the history. Abandoning it discards it.

The application keeps one mutable state object: `{routines, history, activeWorkout, timerSeconds}`.
Here that state is the immutable `GymState.AppState`, and every handler is a pure transition
function over it. The model adds one field, `resting`, for whether the rest overlay is shown.
The overlay is shown exactly while the latest rest ticker is live.

Modules:
- `Wrappers`: the `Option` and `Result` datatypes.
- `GymState`: the data model (`Exercise`, `Routine`, `SetLog`, `Session`, `AppState`) and the lookup of a routine by id.
- `Workout`: the session state machine (start, log a set, advance, finish, abandon) and the rest-timer handlers (tick, adjust, stop-and-proceed).
- `WorkoutRuns`: whole-session runs checked against a reference plan of (exercise, set) pairs.
- `RestCountdown`: the countdown run tick by tick.
- `TimerDisplay`: the `MM:SS` text of the countdown, using JavaScript's number formatting.
- `Text`: `join(', ')` and a splitter that undoes it.
- `Routines`: the editor's save (validation and `parseInt(..) || default` coercion), routine deletion and the routine-card summary.

Interaction with the user and the browser becomes explicit parameters:
- `Date.now()` ids and ISO timestamps become opaque strings.
- `confirm()` becomes a boolean.
- The text of the input fields becomes strings.
- `parseInt` becomes an `Option<int>`, with `None` for `NaN`.

The application looks the routine up by id again at every step. The model instead passes the routine
being run as a parameter, assumed present and unchanged for the whole session.

A session step reads `routine.exercises[currentExerciseIndex]`. When no session is active or the index
is out of range, the application throws a `TypeError`. The model makes this a precondition (`Workout.CanStep`):
the application does not handle that path. The invariant `Workout.Valid` is established by
`StartWorkout` for any routine with at least one exercise, and every transition preserves it.
`Routines.SaveRoutine` only ever creates such routines.

Behaviours of the code worth knowing:
- Exercises may carry `sets <= 0` and negative `rest`. A non-zero `parseInt` result passes through unchanged (`parseInt` itself truncates, so "2.5" gives 2 and "0.5" gives 0, hence the default). A session still logs exactly one set for such an exercise (`GymState.TargetSets`).
- Starting a rest countdown does not cancel an earlier ticker.
- Saving always appends a new routine. The code has no path that overwrites a routine being edited.

## Model

| member | source | states |
|---|---|---|
| `GymState.TargetSets` | app.js:220 | The number of sets a session logs for an exercise: the entered count when it is at least 1, and otherwise still one set, because the comparison at app.js:220 fails on the first set and the session moves on. |
| `GymState.FindRoutine` | app.js:159 | The routine found carries the id and is the first routine in the list that does. It is absent exactly when no routine carries the id. |
| `GymState.FindRoutineIndex` | app.js:159 | The lookup finds the first routine whose id matches. It is absent exactly when no routine carries the id. |
| `Workout.StartWorkout` | app.js:158-169 | An unknown id changes nothing. Otherwise the session starts at exercise 0, set 1, with no logs, the given start time and the routine's name copied. Everything else is unchanged. For a routine with at least one exercise, the new state satisfies the session invariant. |
| `Workout.FinishSet` | app.js:196-214 | Exactly one log is appended, carrying the current exercise's name, the current set number, the weight and reps typed, and the time. Earlier logs, the index and the set number are unchanged. The timer is armed with the exercise's rest. The session invariant is preserved. |
| `Workout.NextSetOrExercise` | app.js:216-235 | There are three outcomes. If the current set is below the target, the set number goes up by one. Otherwise, if another exercise follows, the index goes up by one and the set resets to 1. Otherwise the session is finished into the history. In every case the routines are unchanged and the session invariant is kept: the index stays in range, and the set stays between 1 and the number of sets that exercise logs (at least one). |
| `Workout.FinishWorkout` | app.js:237-245 | The history grows by exactly one. Its head is the session stamped with its end time, the earlier entries follow in their order, and the active session is cleared. |
| `Workout.ConfirmExitWorkout` | app.js:247-252 | A confirmed exit clears the session and leaves the history and routines untouched. An unconfirmed exit changes nothing. |
| `Workout.StopTimerAndProceed` | app.js:277-285 | Hides the rest overlay and advances the session once: the session and history are exactly those `NextSetOrExercise` produces, and the overlay flag has no effect on the advance. The timer and routines are unchanged, and the session invariant is preserved. |
| `Workout.Tick` | app.js:260-268 | The counter drops by one. The rest ends exactly when the new value is zero or less, and then the session and history advance exactly as `NextSetOrExercise` (and so a skip) makes them. Otherwise the session and history are untouched. |
| `Workout.AdjustTimer` | app.js:271-275 | The counter becomes `max(0, seconds + delta)`, so it is never negative. Nothing else changes. |
| `WorkoutRuns.TotalOfPositiveSets` | app.js:196-235 | When every exercise asks for at least one set, a session logs exactly the sum of the entered set counts. |
| `WorkoutRuns.AdvanceStep` | app.js:216-235 | After a logged set, advancing either reaches the next (exercise, set) of the plan or finishes the session. It finishes exactly when the whole plan has been logged. |
| `WorkoutRuns.DoSet` | app.js:196-235 | Logging a set and then ending the rest keeps the session invariant and the routines. |
| `WorkoutRuns.Run` | app.js:196-235 | Driving a session set by set keeps the session invariant and the routines. |
| `WorkoutRuns.RunFromSet` | app.js:196-235 | From any on-plan position, fewer entries than the remaining sets leave the session active and on plan, with the history untouched. Exactly enough entries finish the session, with the whole plan logged and one history entry added. |
| `WorkoutRuns.CompleteWorkout` | app.js:158-245 | A full run logs exactly the plan `(E1,1)..(E1,s1),(E2,1)..(En,sn)`, where an exercise with `sets <= 0` counts as one set. Log k carries entry k's weight and reps. The session is prepended to the history with its name, start time and end time. |
| `WorkoutRuns.AbortPartWay` | app.js:247-252 | Abandoning a session at any point before its last set leaves the history and routines exactly as they were before it started. |
| `RestCountdown.TickN` | app.js:260-268 | Any number of seconds of the live ticker keeps the session invariant. |
| `RestCountdown.Countdown` | app.js:260-268 | A rest of t seconds ends after exactly max(1, t) ticks. Before that, the ticks only count down. From then on, the session has advanced exactly once. |
| `RestCountdown.RestEndsLikeSkip` | app.js:255-285 | Letting the rest run out ends it on the expected tick, with the same session and history as skipping it. |
| `RestCountdown.AdjustBelowZero` | app.js:271-275 | Taking off more time than remains clamps the counter to 0, and the very next tick ends the rest. |
| `RestCountdown.AdjustThenCountdown` | app.js:271-275 | After any adjustment, the rest lasts exactly as many ticks as the adjusted counter shows, and at least one. |
| `TimerDisplay.FormatTimerRoundTrip` | app.js:287-292 | For 0 to 5999 seconds the display is five characters, `MM:SS`, and it reads back as the same number of seconds. |
| `TimerDisplay.IntToString` | app.js:290 | `toString()` on an integer, matching JavaScript only for magnitudes below 1e21: a negative number's text starts with `-` and has at least two characters, and 0 to 99 print in one or two characters. Which digits it prints is stated by `TimerDisplay.IntToStringValue`. |
| `TimerDisplay.NatToStringValue` | app.js:290 | The text of a natural number is its decimal digits: read back as a decimal numeral, it gives the number. |
| `TimerDisplay.IntToStringValue` | app.js:290 | A non-negative integer prints as its decimal digits. A negative integer prints as `-` followed by the digits of its magnitude. |
| `TimerDisplay.PadStart2` | app.js:290 | `padStart(2, '0')`: text shorter than two characters gets leading `0`s up to length 2, and longer text is unchanged. |
| `TimerDisplay.TruncRem` | app.js:289 | JavaScript's `%`: the remainder takes the sign of the dividend, is smaller than the divisor in size, and equals the dividend minus the divisor times the quotient truncated toward zero. |
| `TimerDisplay.FormatTimer` | app.js:288-290 | The text is always at least five characters. For 0 to 5999 seconds it is exactly `MM:SS`, with the colon at position 2. A negative counter's text starts with a minus sign. |
| `TimerDisplay.NegativeCounterNotClock` | app.js:287-292 | Every negative counter (possible with a negative rest time) shows text that starts with `-` and does not read back as a clock value. |
| `Text.Join` | app.js:78 | `join(', ')`: no items give the empty text, and between the first item and the rest stands exactly `", "`. |
| `Text.SplitJoin` | app.js:78 | Joining comma-free names with `", "` can be undone. |
| `Routines.OrDefault` | app.js:132-133 | `NaN` and 0 give the default. Every other number, negatives included, passes through. With a non-zero default (3 or 60) the result is never 0. |
| `Routines.ToExercise` | app.js:131-134 | A saved exercise keeps the typed name. A non-zero parsed sets or rest value, negatives included, is kept as parsed. Otherwise the default applies: 3 for sets, 60 for rest. Neither is ever 0. |
| `Routines.NamedExercises` | app.js:128-135 | Every named row is kept, coerced. Every exercise kept has a name and non-zero sets and rest. The list is empty exactly when no row has a name. |
| `Routines.NamedExercisesFromRows` | app.js:130-135 | Every exercise kept is the coercion of some named row: unnamed rows contribute nothing. |
| `Routines.NamedExercisesConcat` | app.js:130-135 | Rows keep their entered order: the result distributes over concatenation of rows. |
| `Routines.NamedExercisesAllNamed` | app.js:130-135 | When every row is named, row k becomes exercise k. |
| `Routines.ResaveIsIdentity` | app.js:130-135 | Typing a saved routine's exercises back into the editor saves the same exercises: the coercion settles after one pass. |
| `Routines.SaveRoutine` | app.js:124-148 | The save is refused, changing nothing, exactly when the name is empty or no row has a name. An empty name is reported first (`MissingName`), and a named routine without a named row as `NoExercises`. On success exactly one routine is appended at the end, with the given id and name and the named exercises in entered order. Nothing else changes. |
| `Routines.SavedRoutineStarts` | app.js:137-169 | A routine saved under a fresh id is the one found by its id, and starting it opens a session that satisfies the session invariant. |
| `Routines.WithoutId` | app.js:152 | The routines kept are exactly those in the list whose id differs from the one deleted. |
| `Routines.WithoutIdConcat` | app.js:152 | Deletion keeps the others in their original relative order: it distributes over concatenation. |
| `Routines.WithoutAbsentId` | app.js:152 | Deleting an id no routine carries leaves the list unchanged. |
| `Routines.DeleteRoutine` | app.js:150-155 | Without confirmation nothing changes. With it, the routines become exactly those without the id, in their original order (`WithoutId`), and the history and session are untouched. |
| `Routines.DeleteRoutineIdempotent` | app.js:150-155 | A second confirmed deletion of the same id changes nothing. |
| `Routines.Summary` | app.js:77-78 | The summary is empty for a routine with no exercises and otherwise starts with the first exercise's name. It ends in `...` when there are more than three exercises. |
| `Routines.SummaryReadsBack` | app.js:77-78 | With comma-free names, the card summary of a routine with up to three exercises lists every name. A longer routine lists the first three names followed by `...`. |

## Left out

- Rendering and navigation (`navigate`, `renderRoutines` markup, `renderHistory`, `updateWorkoutUI`, `setupRoutineEditor`, `addExerciseInput`, `init`, `onpopstate`): view code with no state logic. Of it, only the card summary string is modelled.
- Persistence (`loadData`, `saveData`, `exportData`): `localStorage`, JSON and file download are I/O. `saveData` is a no-op on the abstract state.
- `setInterval`/`clearInterval` scheduling: the model has no interval handles. A tick is an explicit step. A ticker leaked by starting a second countdown without clearing the first is not modelled, and the model claims nothing about how many tickers are live.
- Workout.Tick: an expiring tick with no active session cannot be modelled. That case arises when a leaked ticker, or a live one after the session was abandoned, fires and the application throws. It is a precondition instead.
- Workout.FinishSet, Workout.NextSetOrExercise, Workout.StopTimerAndProceed: these require `CanStep`, an active session whose exercise index is in range. Without one the application throws a `TypeError` reading `undefined`, and the model does not describe that path.
- Number width: JavaScript numbers are doubles, and the model uses unbounded integers. `currentSet++` and `timerSeconds--` agree with the model only below 2^53. `toString()` prints exponent form from 1e21 up, which `TimerDisplay.IntToString` does not model. `parseInt` of a value of about 1.8e308 or more (any string of 310 or more digits) gives `Infinity`, which `Option<int>` cannot express: with sets at `Infinity` the session never leaves that exercise.
- `playBeep`: a Web Audio call with no effect on the state.
- `alert` and `confirm`: refused saves are `Failure` values, and confirmations are boolean parameters.
- `parseInt` on arbitrary text: its result is an input (`Option<int>`). JavaScript's parsing is not reimplemented.
- `Date.now()` and `toISOString()`: ids and timestamps are opaque string inputs. Id uniqueness is not guaranteed, and lookups take the first match.
- The progress-bar percentage in `updateWorkoutUI`: a floating-point display value.
- Previous-best lookup, history import/merge, the calendar and authentication: these are not part of `app.js`.

=== FILE: gym_state.dfy ===
/** The application state of the workout tracker: routines, finished sessions,
    the session in progress and the rest countdown. */
module GymState {
  import opened Wrappers

  /** One exercise of a routine. `sets` and `rest` are whatever the editor produced:
      neither is constrained to be positive. */
  datatype Exercise = Exercise(name: string, sets: int, rest: int)

  /** A named, ordered list of exercises. Ids come from the clock and are not
      guaranteed unique. */
  datatype Routine = Routine(id: string, name: string, exercises: seq<Exercise>)

  /** One performed set. The exercise is copied by name; weight and reps are the
      raw text of the input fields. */
  datatype SetLog = SetLog(exercise: string, setNumber: int, weight: string, reps: string, timestamp: string)

  /** A workout session, in progress or (once `endTime` is stamped) finished. */
  datatype Session = Session(
    routineId: string,
    routineName: string,
    currentExerciseIndex: int,
    currentSet: int,
    startTime: string,
    endTime: Option<string>,
    logs: seq<SetLog>)

  /** The whole application state. `resting` is true while the rest overlay is
      shown, which is exactly while the latest rest ticker is live. */
  datatype AppState = AppState(
    routines: seq<Routine>,
    history: seq<Session>,
    activeWorkout: Option<Session>,
    timerSeconds: int,
    resting: bool)

  /** The number of sets a session actually logs for an exercise: a target of
      zero or less still yields one set before the session moves on. */
  function TargetSets(e: Exercise): (n: nat)
    ensures n >= 1
    ensures e.sets >= 1 ==> n == e.sets
  {
    if e.sets >= 1 then e.sets else 1
  }

  /** Position of the first routine carrying `id`, as `Array.prototype.find` picks it. */
  function FindRoutineIndex(routines: seq<Routine>, id: string): (r: Option<nat>)
    ensures r.Some? ==> r.value < |routines| && routines[r.value].id == id
    ensures r.Some? ==> forall j :: 0 <= j < r.value ==> routines[j].id != id
    ensures r.None? <==> forall j :: 0 <= j < |routines| ==> routines[j].id != id
    decreases |routines|
  {
    if |routines| == 0 then None
    else if routines[0].id == id then Some(0)
    else
      match FindRoutineIndex(routines[1..], id)
      case None => None
      case Some(k) => Some(k + 1)
  }

  /** The first routine carrying `id`, if any. */
  function FindRoutine(routines: seq<Routine>, id: string): (r: Option<Routine>)
    ensures r.Some? ==> r.value in routines && r.value.id == id
    ensures r.Some? ==> exists i :: 0 <= i < |routines| && routines[i] == r.value
                                    && forall j :: 0 <= j < i ==> routines[j].id != id
    ensures r.None? <==> forall j :: 0 <= j < |routines| ==> routines[j].id != id
  {
    match FindRoutineIndex(routines, id)
    case None => None
    case Some(k) => Some(routines[k])
  }
}

=== FILE: rest_countdown.dfy ===
/** The rest countdown run tick by tick: a rest of `t` seconds ends after
    exactly max(1, t) ticks and advances the session exactly once. */
module RestCountdown {
  import opened GymState
  import opened Workout
  import opened WorkoutRuns

  /** Ticks a live countdown needs before it ends the rest: a counter at zero
      or below still needs one tick. */
  function TicksToExpire(t: int): (n: nat)
    ensures n >= 1
  {
    if t >= 1 then t else 1
  }

  /** The state a resting timer may be ticked from. */
  predicate Ticking(st: AppState, rt: Routine)
  {
    Valid(st, rt) && (st.resting ==> st.activeWorkout.Some?)
  }

  /** `n` seconds of the live ticker. Once a tick has ended the rest the
      interval is cleared, so later seconds change nothing. */
  function TickN(st: AppState, rt: Routine, n: nat, now: string): (r: AppState)
    requires Ticking(st, rt)
    ensures Ticking(r, rt)
    decreases n
  {
    if n == 0 || !st.resting then st
    else TickN(Tick(st, rt, now), rt, n - 1, now)
  }

  /** Before expiry the ticks only count down; from expiry on, the session has
      advanced exactly once, as by `StopTimerAndProceed`. */
  lemma {:induction false} Countdown(st: AppState, rt: Routine, n: nat, now: string)
    requires Ticking(st, rt) && st.resting
    ensures n < TicksToExpire(st.timerSeconds) ==>
      TickN(st, rt, n, now) == st.(timerSeconds := st.timerSeconds - n)
    ensures n >= TicksToExpire(st.timerSeconds) ==>
      TickN(st, rt, n, now)
        == StopTimerAndProceed(st.(timerSeconds := st.timerSeconds - TicksToExpire(st.timerSeconds)), rt, now)
    decreases n
  {
    if n > 0 {
      var st1 := Tick(st, rt, now);
      if st.timerSeconds - 1 > 0 {
        assert st1 == st.(timerSeconds := st.timerSeconds - 1);
        Countdown(st1, rt, n - 1, now);
      } else {
        assert !st1.resting;
        if n - 1 > 0 {
          assert TickN(st1, rt, n - 1, now) == st1;
        }
      }
    }
  }

  /** Letting the rest run out advances the session to the same place as
      skipping it: after logging a set, the rest ends on the tick that lets
      `TicksToExpire(rest)` seconds elapse, and the session and history
      match those of `DoSet`. */
  lemma RestEndsLikeSkip(st: AppState, rt: Routine, e: SetEntry)
    requires Valid(st, rt) && st.activeWorkout.Some?
    ensures
      var logged := FinishSet(st, rt, e.weight, e.reps, e.loggedAt);
      var n := TicksToExpire(CurrentExercise(st, rt).rest);
      var r := TickN(logged, rt, n, e.advancedAt);
      && TickN(logged, rt, n - 1, e.advancedAt).resting
      && !r.resting
      && r.activeWorkout == DoSet(st, rt, e).activeWorkout
      && r.history == DoSet(st, rt, e).history
  {
    var logged := FinishSet(st, rt, e.weight, e.reps, e.loggedAt);
    var n := TicksToExpire(CurrentExercise(st, rt).rest);
    Countdown(logged, rt, n, e.advancedAt);
    Countdown(logged, rt, n - 1, e.advancedAt);
  }

  /** Taking off more time than remains clamps the counter to zero, and the
      very next tick ends the rest. */
  lemma AdjustBelowZero(st: AppState, rt: Routine, delta: int, now: string)
    requires Ticking(st, rt) && st.resting
    requires st.timerSeconds + delta <= 0
    ensures AdjustTimer(st, delta).timerSeconds == 0
    ensures TickN(AdjustTimer(st, delta), rt, 1, now)
              == StopTimerAndProceed(st.(timerSeconds := -1), rt, now)
  {
    Countdown(AdjustTimer(st, delta), rt, 1, now);
  }

  /** After any adjustment the rest lasts exactly as many ticks as the
      adjusted counter shows, and never less than one. */
  lemma AdjustThenCountdown(st: AppState, rt: Routine, delta: int, now: string)
    requires Ticking(st, rt) && st.resting
    ensures
      var adj := AdjustTimer(st, delta);
      var n := TicksToExpire(adj.timerSeconds);
      && TickN(adj, rt, n - 1, now).resting
      && !TickN(adj, rt, n, now).resting
      && TickN(adj, rt, n, now).activeWorkout == StopTimerAndProceed(st, rt, now).activeWorkout
  {
    var adj := AdjustTimer(st, delta);
    var n := TicksToExpire(adj.timerSeconds);
    Countdown(adj, rt, n, now);
    Countdown(adj, rt, n - 1, now);
  }
}

=== FILE: routines.dfy ===
/** The routine editor's save, routine deletion and the routine-card summary. */
module Routines {
  import opened Wrappers
  import opened GymState
  import opened Text
  import opened Workout

  /** One row of the editor: the typed exercise name and what `parseInt` made
      of the sets and rest fields (`None` for `NaN`). */
  datatype ExerciseRow = ExerciseRow(name: string, sets: Option<int>, rest: Option<int>)

  /** Why a save is refused; the user is alerted and nothing changes. */
  datatype SaveError = MissingName | NoExercises

  const DefaultSets: int := 3
  const DefaultRest: int := 60

  /** `parsed || fallback`: both `NaN` and 0 are falsy and give the fallback;
      every other number, negative ones included, passes through. With a
      non-zero fallback the result is never 0, so coercing it again keeps it
      (see `ResaveIsIdentity`). */
  function OrDefault(parsed: Option<int>, fallback: int): (v: int)
    ensures parsed.Some? && parsed.value != 0 ==> v == parsed.value
    ensures parsed.None? || parsed == Some(0) ==> v == fallback
    ensures fallback != 0 ==> v != 0
  {
    match parsed
    case Some(n) => if n != 0 then n else fallback
    case None => fallback
  }

  /** One editor row as saved: the name as typed, sets and rest coerced. */
  function ToExercise(row: ExerciseRow): (e: Exercise)
    ensures e.name == row.name
    ensures e.sets != 0 && (row.sets == Some(e.sets) || e.sets == DefaultSets)
    ensures e.rest != 0 && (row.rest == Some(e.rest) || e.rest == DefaultRest)
    ensures row.sets.Some? && row.sets.value != 0 ==> e.sets == row.sets.value
    ensures row.rest.Some? && row.rest.value != 0 ==> e.rest == row.rest.value
  {
    Exercise(row.name, OrDefault(row.sets, DefaultSets), OrDefault(row.rest, DefaultRest))
  }

  /** The exercises a save keeps: rows with a name, coerced, in entered order. */
  function NamedExercises(rows: seq<ExerciseRow>): (r: seq<Exercise>)
    ensures |r| <= |rows|
    ensures forall k :: 0 <= k < |r| ==> r[k].name != "" && r[k].sets != 0 && r[k].rest != 0
    ensures forall k :: 0 <= k < |rows| && rows[k].name != "" ==> ToExercise(rows[k]) in r
    ensures |r| == 0 <==> forall k :: 0 <= k < |rows| ==> rows[k].name == ""
    decreases |rows|
  {
    if |rows| == 0 then []
    else
      var rest := NamedExercises(rows[1..]);
      if rows[0].name != "" then [ToExercise(rows[0])] + rest else rest
  }

  /** Every exercise kept comes from a named row. */
  lemma {:induction false} NamedExercisesFromRows(rows: seq<ExerciseRow>, e: Exercise)
    requires e in NamedExercises(rows)
    ensures exists k :: 0 <= k < |rows| && rows[k].name != "" && ToExercise(rows[k]) == e
    decreases |rows|
  {
    if rows[0].name != "" && e == ToExercise(rows[0]) {
      assert rows[0].name != "" && ToExercise(rows[0]) == e;
    } else {
      NamedExercisesFromRows(rows[1..], e);
      var k :| 0 <= k < |rows[1..]| && rows[1..][k].name != "" && ToExercise(rows[1..][k]) == e;
      assert rows[k + 1] == rows[1..][k];
    }
  }

  /** Order is kept: the rows entered first give the exercises listed first. */
  lemma {:induction false} NamedExercisesConcat(a: seq<ExerciseRow>, b: seq<ExerciseRow>)
    ensures NamedExercises(a + b) == NamedExercises(a) + NamedExercises(b)
    decreases |a|
  {
    if |a| > 0 {
      assert (a + b)[1..] == a[1..] + b;
      NamedExercisesConcat(a[1..], b);
    } else {
      assert a + b == b;
    }
  }

  /** When every row has a name, every row becomes an exercise, in place. */
  lemma {:induction false} NamedExercisesAllNamed(rows: seq<ExerciseRow>)
    requires forall k :: 0 <= k < |rows| ==> rows[k].name != ""
    ensures |NamedExercises(rows)| == |rows|
    ensures forall k :: 0 <= k < |rows| ==> NamedExercises(rows)[k] == ToExercise(rows[k])
    decreases |rows|
  {
    if |rows| > 0 {
      NamedExercisesAllNamed(rows[1..]);
    }
  }

  /** Re-entering a saved routine's exercises as rows saves them unchanged. */
  lemma ResaveIsIdentity(exs: seq<Exercise>)
    requires forall k :: 0 <= k < |exs| ==> exs[k].name != "" && exs[k].sets != 0 && exs[k].rest != 0
    ensures NamedExercises(seq(|exs|, k requires 0 <= k < |exs| => ExerciseRow(exs[k].name, Some(exs[k].sets), Some(exs[k].rest))))
            == exs
  {
    var rows := seq(|exs|, k requires 0 <= k < |exs| => ExerciseRow(exs[k].name, Some(exs[k].sets), Some(exs[k].rest)));
    NamedExercisesAllNamed(rows);
  }

  /** Saves the routine typed in the editor under the clock-derived `id`: an
      empty name or no named row refuses the save; otherwise exactly one
      routine is appended and nothing else changes. */
  function SaveRoutine(st: AppState, name: string, rows: seq<ExerciseRow>, id: string): (r: Result<AppState, SaveError>)
    ensures r.Failure? <==> name == "" || forall k :: 0 <= k < |rows| ==> rows[k].name == ""
    ensures name == "" ==> r == Failure(MissingName)
    ensures name != "" && (forall k :: 0 <= k < |rows| ==> rows[k].name == "") ==> r == Failure(NoExercises)
    ensures r.Success? ==>
      && |r.value.routines| == |st.routines| + 1
      && r.value.routines[..|st.routines|] == st.routines
      && var added := r.value.routines[|st.routines|];
      && added.id == id
      && added.name == name
      && added.exercises == NamedExercises(rows)
      && |added.exercises| > 0
      && r.value == st.(routines := r.value.routines)
  {
    if name == "" then Failure(MissingName)
    else
      var exercises := NamedExercises(rows);
      if |exercises| == 0 then Failure(NoExercises)
      else Success(st.(routines := st.routines + [Routine(id, name, exercises)]))
  }

  /** A routine saved under a fresh id can be started at once, and the
      session it opens satisfies the workout invariant. */
  lemma SavedRoutineStarts(st: AppState, name: string, rows: seq<ExerciseRow>, id: string, now: string)
    requires SaveRoutine(st, name, rows, id).Success?
    requires forall k :: 0 <= k < |st.routines| ==> st.routines[k].id != id
    ensures
      var saved := SaveRoutine(st, name, rows, id).value;
      var added := Routine(id, name, NamedExercises(rows));
      && FindRoutine(saved.routines, id) == Some(added)
      && Valid(StartWorkout(saved, id, now), added)
      && StartWorkout(saved, id, now).activeWorkout.value.routineName == name
  {
    var saved := SaveRoutine(st, name, rows, id).value;
    var k := FindRoutineIndex(saved.routines, id);
    assert saved.routines[|st.routines|].id == id;
    assert k.Some? && k.value == |st.routines|;
  }

  /** The routines that do not carry `id`, in their original order. */
  function WithoutId(routines: seq<Routine>, id: string): (r: seq<Routine>)
    ensures |r| <= |routines|
    ensures forall x :: x in r <==> x in routines && x.id != id
    decreases |routines|
  {
    if |routines| == 0 then []
    else
      var rest := WithoutId(routines[1..], id);
      if routines[0].id != id then [routines[0]] + rest else rest
  }

  /** Deleting keeps relative order: it distributes over concatenation. */
  lemma {:induction false} WithoutIdConcat(a: seq<Routine>, b: seq<Routine>, id: string)
    ensures WithoutId(a + b, id) == WithoutId(a, id) + WithoutId(b, id)
    decreases |a|
  {
    if |a| > 0 {
      assert (a + b)[1..] == a[1..] + b;
      WithoutIdConcat(a[1..], b, id);
    } else {
      assert a + b == b;
    }
  }

  /** Deleting an id no routine carries changes nothing. */
  lemma {:induction false} WithoutAbsentId(routines: seq<Routine>, id: string)
    requires forall k :: 0 <= k < |routines| ==> routines[k].id != id
    ensures WithoutId(routines, id) == routines
    decreases |routines|
  {
    if |routines| > 0 {
      WithoutAbsentId(routines[1..], id);
    }
  }

  /** Deleting on confirmation removes every routine with `id` and keeps the
      others; without confirmation nothing changes. */
  function DeleteRoutine(st: AppState, id: string, confirmed: bool): (r: AppState)
    ensures !confirmed ==> r == st
    ensures confirmed ==> forall x :: x in r.routines <==> x in st.routines && x.id != id
    ensures confirmed ==> r.routines == WithoutId(st.routines, id)
    ensures r == st.(routines := r.routines)
  {
    if confirmed then st.(routines := WithoutId(st.routines, id)) else st
  }

  /** A second confirmed delete of the same id finds nothing left to remove. */
  lemma DeleteRoutineIdempotent(st: AppState, id: string)
    ensures DeleteRoutine(DeleteRoutine(st, id, true), id, true) == DeleteRoutine(st, id, true)
  {
    var once := WithoutId(st.routines, id);
    forall k | 0 <= k < |once|
      ensures once[k].id != id
    {
      assert once[k] in once;
    }
    WithoutAbsentId(once, id);
  }

  function Names(exs: seq<Exercise>): (r: seq<string>)
    ensures |r| == |exs|
  {
    seq(|exs|, k requires 0 <= k < |exs| => exs[k].name)
  }

  /** The routine card's exercise summary: the first three names joined with
      ", ", followed by "..." when there are more than three. */
  function Summary(exs: seq<Exercise>): (r: string)
    ensures |exs| == 0 ==> r == ""
    ensures |exs| > 0 ==> exs[0].name <= r
    ensures |exs| > 3 ==> |r| >= 3 && r[|r| - 3..] == "..."
  {
    var names := Names(exs);
    var shown := if |names| > 3 then names[..3] else names;
    var suffix := if |exs| > 3 then "..." else "";
    if |shown| == 0 then Join(shown) + suffix
    else
      JoinStartsWithHead(shown);
      Join(shown) + suffix
  }

  /** With comma-free names the summary lists every name of a short routine,
      and the first three names of a longer one followed by "...". */
  lemma SummaryReadsBack(exs: seq<Exercise>)
    requires |exs| > 0
    requires forall k :: 0 <= k < |exs| ==> CommaFree(exs[k].name)
    ensures |exs| <= 3 ==> SplitList(Summary(exs)) == Names(exs)
    ensures |exs| > 3 ==>
      var s := Summary(exs);
      && |s| >= 3
      && s[|s| - 3..] == "..."
      && SplitList(s[..|s| - 3]) == Names(exs)[..3]
  {
    var names := Names(exs);
    if |exs| <= 3 {
      assert Summary(exs) == Join(names);
      SplitJoin(names);
    } else {
      var s := Summary(exs);
      assert s == Join(names[..3]) + "...";
      assert s[..|s| - 3] == Join(names[..3]);
      SplitJoin(names[..3]);
    }
  }
}

=== FILE: text.dfy ===
/** `Array.prototype.join(', ')` and a splitter that undoes it. */
module Text {

  /** The items joined with ", " between consecutive ones; empty for no items. */
  function Join(xs: seq<string>): (r: string)
    ensures |xs| == 0 ==> r == ""
    ensures |xs| > 1 ==> |r| >= |xs[0]| + 2 && r[|xs[0]|..|xs[0]| + 2] == ", "
    decreases |xs|
  {
    if |xs| == 0 then ""
    else if |xs| == 1 then xs[0]
    else xs[0] + ", " + Join(xs[1..])
  }

  /** The joined text starts with the first item. */
  lemma JoinStartsWithHead(xs: seq<string>)
    requires |xs| > 0
    ensures xs[0] <= Join(xs)
  {
    if |xs| > 1 {
      assert Join(xs) == xs[0] + (", " + Join(xs[1..]));
    }
  }

  /** Index of the first comma, or the length when there is none. */
  function FirstComma(s: string): (k: nat)
    ensures k <= |s|
    ensures k < |s| ==> s[k] == ','
    ensures forall j :: 0 <= j < k ==> s[j] != ','
    decreases |s|
  {
    if |s| == 0 then 0 else if s[0] == ',' then 0 else 1 + FirstComma(s[1..])
  }

  /** Splits at each comma and drops the one character following it. */
  function SplitList(s: string): (parts: seq<string>)
    decreases |s|
  {
    var k := FirstComma(s);
    if k == |s| then [s]
    else
      var after := s[k + 1..];
      [s[..k]] + SplitList(if |after| > 0 then after[1..] else after)
  }

  predicate CommaFree(x: string)
  {
    forall j :: 0 <= j < |x| ==> x[j] != ','
  }

  /** Splitting `head, tail` after a comma-free head yields the head, then the split of the tail. */
  lemma SplitAfterHead(head: string, tail: string)
    requires CommaFree(head)
    ensures SplitList(head + (", " + tail)) == [head] + SplitList(tail)
  {
    var s := head + (", " + tail);
    assert s[|head|] == ',';
    assert forall j :: 0 <= j < |head| ==> s[j] == head[j];
    assert FirstComma(s) == |head|;
    assert s[..|head|] == head;
    assert s[|head| + 1..] == " " + tail;
    assert s[|head| + 1..][1..] == tail;
  }

  /** Joining comma-free items and splitting the result gives the items back. */
  lemma {:induction false} SplitJoin(xs: seq<string>)
    requires |xs| > 0
    requires forall i :: 0 <= i < |xs| ==> CommaFree(xs[i])
    ensures SplitList(Join(xs)) == xs
    decreases |xs|
  {
    if |xs| == 1 {
      assert FirstComma(xs[0]) == |xs[0]|;
    } else {
      assert Join(xs) == xs[0] + (", " + Join(xs[1..]));
      SplitAfterHead(xs[0], Join(xs[1..]));
      SplitJoin(xs[1..]);
      assert xs == [xs[0]] + xs[1..];
    }
  }
}

=== FILE: timer_display.dfy ===
/** The `MM:SS` text of the rest countdown, with JavaScript's number
    formatting: minutes by `Math.floor`, seconds by the truncating `%`, each
    part left-padded with '0' to two characters. */
module TimerDisplay {
  import opened Wrappers

  predicate IsDigit(c: char)
  {
    '0' <= c <= '9'
  }

  function Digit(d: nat): (c: char)
    requires d < 10
    ensures IsDigit(c)
  {
    (('0' as int) + d) as char
  }

  function DigitValue(c: char): (d: nat)
    requires IsDigit(c)
  {
    (c as int) - ('0' as int)
  }

  /** Decimal text of a natural number, without leading zeros. */
  function NatToString(n: nat): (r: string)
    ensures 1 <= |r|
    ensures n < 10 ==> |r| == 1
    ensures n < 100 ==> |r| <= 2
    ensures forall k :: 0 <= k < |r| ==> IsDigit(r[k])
    decreases n
  {
    if n < 10 then [Digit(n)] else NatToString(n / 10) + [Digit(n % 10)]
  }

  /** The number a string of decimal digits denotes. */
  function DecimalValue(s: string): (v: nat)
    requires forall k :: 0 <= k < |s| ==> IsDigit(s[k])
    decreases |s|
  {
    if |s| == 0 then 0 else DecimalValue(s[..|s| - 1]) * 10 + DigitValue(s[|s| - 1])
  }

  /** `NatToString` prints the decimal digits of its argument. */
  lemma {:induction false} NatToStringValue(n: nat)
    ensures DecimalValue(NatToString(n)) == n
    decreases n
  {
    if n >= 10 {
      NatToStringValue(n / 10);
      var s := NatToString(n);
      assert s[..|s| - 1] == NatToString(n / 10);
    }
  }

  /** `Number.prototype.toString()` on an integer, for integers JavaScript
      holds exactly and prints without an exponent (magnitude below 1e21). */
  function IntToString(i: int): (r: string)
    ensures i < 0 ==> |r| >= 2 && r[0] == '-'
    ensures 0 <= i < 100 ==> 1 <= |r| <= 2
  {
    if i < 0 then "-" + NatToString(-i) else NatToString(i)
  }

  /** The text of an integer is its decimal digits, after a minus sign when it
      is negative. */
  lemma IntToStringValue(i: int)
    ensures i >= 0 ==> DecimalValue(IntToString(i)) == i
    ensures i < 0 ==> IntToString(i)[1..] == NatToString(-i) && DecimalValue(IntToString(i)[1..]) == -i
  {
    if i >= 0 {
      NatToStringValue(i);
    } else {
      NatToStringValue(-i);
      assert IntToString(i)[1..] == NatToString(-i);
    }
  }

  /** `String.prototype.padStart(2, '0')`. */
  function PadStart2(s: string): (r: string)
    ensures |r| == if |s| < 2 then 2 else |s|
    ensures |s| < 2 ==> r == seq(2 - |s|, _ => '0') + s
    ensures |s| >= 2 ==> r == s
  {
    if |s| == 0 then "00" else if |s| == 1 then "0" + s else s
  }

  /** JavaScript's `%`: the remainder takes the sign of the dividend. */
  function TruncRem(a: int, b: int): (r: int)
    requires b > 0
    ensures a >= 0 ==> 0 <= r < b
    ensures a < 0 ==> 0 - b < r <= 0
    ensures a - r == b * (if a >= 0 then a / b else -((-a) / b))
  {
    if a >= 0 then a % b else -((-a) % b)
  }

  /** The countdown as shown in the rest overlay. For a non-negative counter
      `Math.floor(s / 60)` is Dafny's `s / 60` (the divisor is positive). */
  function FormatTimer(seconds: int): (r: string)
    ensures |r| >= 5
    ensures 0 <= seconds < 6000 ==> |r| == 5 && r[2] == ':'
    ensures seconds < 0 ==> r[0] == '-'
  {
    var minutes := seconds / 60;
    var mm := PadStart2(IntToString(minutes));
    var ss := PadStart2(IntToString(TruncRem(seconds, 60)));
    assert seconds < 0 ==> minutes < 0;
    assert 0 <= seconds < 6000 ==> 0 <= minutes < 100;
    assert 0 <= seconds < 6000 ==> |mm| == 2 && |ss| == 2;
    mm + ":" + ss
  }

  /** Reads back a five-character `MM:SS` text. */
  function ParseClock(text: string): (r: Option<nat>)
    ensures r.Some? ==> |text| == 5 && text[2] == ':'
  {
    if |text| == 5 && text[2] == ':' && IsDigit(text[0]) && IsDigit(text[1])
       && IsDigit(text[3]) && IsDigit(text[4])
    then Some((DigitValue(text[0]) * 10 + DigitValue(text[1])) * 60
              + DigitValue(text[3]) * 10 + DigitValue(text[4]))
    else None
  }

  lemma TwoDigits(n: nat)
    requires n < 100
    ensures PadStart2(IntToString(n)) == [Digit(n / 10), Digit(n % 10)]
  {
    if n < 10 {
      assert IntToString(n) == [Digit(n)];
      assert Digit(n / 10) == '0';
    } else {
      assert NatToString(n / 10) == [Digit(n / 10)];
      assert IntToString(n) == [Digit(n / 10)] + [Digit(n % 10)];
    }
  }

  /** Below 100 minutes the display is exactly five characters and reads back
      as the number of seconds it shows. */
  lemma {:induction false} FormatTimerRoundTrip(seconds: int)
    requires 0 <= seconds < 6000
    ensures |FormatTimer(seconds)| == 5
    ensures ParseClock(FormatTimer(seconds)) == Some(seconds)
  {
    var m, s := seconds / 60, seconds % 60;
    assert m < 100;
    TwoDigits(m);
    TwoDigits(s);
    var text := FormatTimer(seconds);
    assert text == [Digit(m / 10), Digit(m % 10), ':', Digit(s / 10), Digit(s % 10)];
    assert DigitValue(text[0]) * 10 + DigitValue(text[1]) == m;
    assert DigitValue(text[3]) * 10 + DigitValue(text[4]) == s;
  }

  /** No negative counter is shown as a clock reading: the text starts with a
      minus sign and does not read back. */
  lemma NegativeCounterNotClock(seconds: int)
    requires seconds < 0
    ensures FormatTimer(seconds)[0] == '-'
    ensures ParseClock(FormatTimer(seconds)).None?
  {
    assert seconds / 60 < 0;
    assert IntToString(seconds / 60)[0] == '-';
    assert |IntToString(seconds / 60)| >= 2;
  }
}

=== FILE: workout.dfy ===
/** The workout session state machine and the rest timer that gates it.
    Each transition takes the routine being run as a parameter: the
    application looks it up again by id at every step and the model assumes
    it is present and unchanged for the whole session. */
module Workout {
  import opened Wrappers
  import opened GymState

  /** A session is on track for a routine when it belongs to it, its exercise
      index is in range and its set number lies between 1 and the number of
      sets that exercise logs. */
  predicate OnTrack(s: Session, rt: Routine)
  {
    && s.routineId == rt.id
    && 0 <= s.currentExerciseIndex < |rt.exercises|
    && 1 <= s.currentSet <= TargetSets(rt.exercises[s.currentExerciseIndex])
  }

  /** The invariant every transition keeps: an active session is on track. */
  predicate Valid(st: AppState, rt: Routine)
  {
    st.activeWorkout.Some? ==> OnTrack(st.activeWorkout.value, rt)
  }

  /** What a step needs to read the current exercise; without it the
      application dereferences `undefined` and throws. */
  predicate CanStep(st: AppState, rt: Routine)
  {
    && st.activeWorkout.Some?
    && 0 <= st.activeWorkout.value.currentExerciseIndex < |rt.exercises|
  }

  function CurrentExercise(st: AppState, rt: Routine): (e: Exercise)
    requires CanStep(st, rt)
  {
    rt.exercises[st.activeWorkout.value.currentExerciseIndex]
  }

  /** Opens a session on the first routine with `routineId`; an unknown id
      changes nothing. */
  function StartWorkout(st: AppState, routineId: string, now: string): (r: AppState)
    ensures FindRoutine(st.routines, routineId).None? ==> r == st
    ensures FindRoutine(st.routines, routineId).Some? ==>
      var rt := FindRoutine(st.routines, routineId).value;
      && r.routines == st.routines
      && r.history == st.history
      && r.timerSeconds == st.timerSeconds
      && r.resting == st.resting
      && r.activeWorkout.Some?
      && var s := r.activeWorkout.value;
      && s.routineId == routineId
      && s.routineName == rt.name
      && s.currentExerciseIndex == 0
      && s.currentSet == 1
      && s.startTime == now
      && s.endTime.None?
      && s.logs == []
      && (|rt.exercises| > 0 ==> Valid(r, rt))
  {
    match FindRoutine(st.routines, routineId)
    case None => st
    case Some(rt) =>
      st.(activeWorkout := Some(Session(rt.id, rt.name, 0, 1, now, None, [])))
  }

  /** Logs the current set with the typed weight and reps, then arms the rest
      timer with the exercise's rest time. */
  function FinishSet(st: AppState, rt: Routine, weight: string, reps: string, now: string): (r: AppState)
    requires CanStep(st, rt)
    ensures r.activeWorkout.Some?
    ensures
      var s, s' := st.activeWorkout.value, r.activeWorkout.value;
      && s'.logs == s.logs + [SetLog(CurrentExercise(st, rt).name, s.currentSet, weight, reps, now)]
      && s' == s.(logs := s'.logs)
    ensures r.timerSeconds == CurrentExercise(st, rt).rest && r.resting
    ensures r.routines == st.routines && r.history == st.history
    ensures Valid(st, rt) ==> Valid(r, rt)
  {
    var s := st.activeWorkout.value;
    var ex := CurrentExercise(st, rt);
    var log := SetLog(ex.name, s.currentSet, weight, reps, now);
    st.(activeWorkout := Some(s.(logs := s.logs + [log])), timerSeconds := ex.rest, resting := true)
  }

  /** Stamps the end time, puts the session at the front of the history and
      clears the active session. */
  function FinishWorkout(st: AppState, now: string): (r: AppState)
    requires st.activeWorkout.Some?
    ensures r.activeWorkout.None?
    ensures |r.history| == |st.history| + 1
    ensures r.history[0] == st.activeWorkout.value.(endTime := Some(now))
    ensures r.history[1..] == st.history
    ensures r.routines == st.routines
    ensures r.timerSeconds == st.timerSeconds && r.resting == st.resting
  {
    var done := st.activeWorkout.value.(endTime := Some(now));
    st.(history := [done] + st.history, activeWorkout := None)
  }

  /** Advances to the next set, else to the next exercise, else finishes the
      workout. */
  function NextSetOrExercise(st: AppState, rt: Routine, now: string): (r: AppState)
    requires CanStep(st, rt)
    ensures r.routines == st.routines && r.timerSeconds == st.timerSeconds && r.resting == st.resting
    ensures
      var s := st.activeWorkout.value;
      s.currentSet < CurrentExercise(st, rt).sets ==>
        && r.history == st.history
        && r.activeWorkout == Some(s.(currentSet := s.currentSet + 1))
    ensures
      var s := st.activeWorkout.value;
      !(s.currentSet < CurrentExercise(st, rt).sets) && s.currentExerciseIndex < |rt.exercises| - 1 ==>
        && r.history == st.history
        && r.activeWorkout == Some(s.(currentExerciseIndex := s.currentExerciseIndex + 1, currentSet := 1))
    ensures
      var s := st.activeWorkout.value;
      !(s.currentSet < CurrentExercise(st, rt).sets) && s.currentExerciseIndex == |rt.exercises| - 1 ==>
        && r.activeWorkout.None?
        && r.history == [s.(endTime := Some(now))] + st.history
    ensures Valid(st, rt) ==> Valid(r, rt)
  {
    var s := st.activeWorkout.value;
    if s.currentSet < CurrentExercise(st, rt).sets then
      st.(activeWorkout := Some(s.(currentSet := s.currentSet + 1)))
    else if s.currentExerciseIndex < |rt.exercises| - 1 then
      st.(activeWorkout := Some(s.(currentExerciseIndex := s.currentExerciseIndex + 1, currentSet := 1)))
    else
      FinishWorkout(st, now)
  }

  /** Abandons the session when the user confirms; nothing is saved. */
  function ConfirmExitWorkout(st: AppState, confirmed: bool): (r: AppState)
    ensures r.history == st.history && r.routines == st.routines
    ensures r.timerSeconds == st.timerSeconds && r.resting == st.resting
    ensures confirmed ==> r.activeWorkout.None?
    ensures !confirmed ==> r == st
  {
    if confirmed then st.(activeWorkout := None) else st
  }

  /** Hides the rest overlay, stops the ticker and advances the session. The
      skip button does exactly this. */
  function StopTimerAndProceed(st: AppState, rt: Routine, now: string): (r: AppState)
    requires CanStep(st, rt)
    ensures !r.resting
    ensures r.timerSeconds == st.timerSeconds && r.routines == st.routines
    ensures r.activeWorkout == NextSetOrExercise(st, rt, now).activeWorkout
    ensures r.history == NextSetOrExercise(st, rt, now).history
    ensures Valid(st, rt) ==> Valid(r, rt)
  {
    NextSetOrExercise(st.(resting := false), rt, now)
  }

  /** One second of the rest countdown: decrement, and proceed once the
      counter has reached zero or below. */
  function Tick(st: AppState, rt: Routine, now: string): (r: AppState)
    requires st.timerSeconds - 1 <= 0 ==> CanStep(st, rt)
    ensures r.timerSeconds == st.timerSeconds - 1
    ensures st.timerSeconds - 1 <= 0 ==> !r.resting
    ensures st.timerSeconds - 1 <= 0 ==>
      && r.activeWorkout == NextSetOrExercise(st, rt, now).activeWorkout
      && r.history == NextSetOrExercise(st, rt, now).history
    ensures st.timerSeconds - 1 > 0 ==>
      r.resting == st.resting && r.activeWorkout == st.activeWorkout && r.history == st.history
    ensures r.routines == st.routines
    ensures Valid(st, rt) ==> Valid(r, rt)
  {
    var counted := st.(timerSeconds := st.timerSeconds - 1);
    if counted.timerSeconds <= 0 then StopTimerAndProceed(counted, rt, now) else counted
  }

  /** Adds or removes rest time; the countdown never goes below zero. */
  function AdjustTimer(st: AppState, delta: int): (r: AppState)
    ensures r.timerSeconds >= 0
    ensures st.timerSeconds + delta >= 0 ==> r.timerSeconds == st.timerSeconds + delta
    ensures st.timerSeconds + delta < 0 ==> r.timerSeconds == 0
    ensures r == st.(timerSeconds := r.timerSeconds)
  {
    var t := st.timerSeconds + delta;
    st.(timerSeconds := if t < 0 then 0 else t)
  }
}

=== FILE: workout_runs.dfy ===
/** Whole-session runs: a session driven set by set from start to finish logs
    exactly the sets of a reference plan, in plan order. */
module WorkoutRuns {
  import opened Wrappers
  import opened GymState
  import opened Workout

  /** What the user supplies for one set: the typed weight and reps, the time
      the set is logged and the time the rest ends. */
  datatype SetEntry = SetEntry(weight: string, reps: string, loggedAt: string, advancedAt: string)

  /** The (exercise, set number) pairs of a log sequence. */
  function Trace(logs: seq<SetLog>): (t: seq<(string, int)>)
    ensures |t| == |logs|
  {
    seq(|logs|, k requires 0 <= k < |logs| => (logs[k].exercise, logs[k].setNumber))
  }

  /** Sets 1 to n of one exercise. */
  function Slots(name: string, n: nat): (slots: seq<(string, int)>)
  {
    if n == 0 then [] else Slots(name, n - 1) + [(name, n)]
  }

  /** Reference plan of a routine: each exercise in order, each with sets 1 to
      its target. */
  function Plan(exs: seq<Exercise>): (p: seq<(string, int)>)
    decreases |exs|
  {
    if |exs| == 0 then []
    else Plan(exs[..|exs| - 1]) + Slots(exs[|exs| - 1].name, TargetSets(exs[|exs| - 1]))
  }

  /** Number of sets a complete session of these exercises logs. */
  function TotalSets(exs: seq<Exercise>): (total: nat)
    decreases |exs|
  {
    if |exs| == 0 then 0 else TotalSets(exs[..|exs| - 1]) + TargetSets(exs[|exs| - 1])
  }

  /** The sum of the target set counts as entered. */
  function SumSets(exs: seq<Exercise>): (sum: int)
    decreases |exs|
  {
    if |exs| == 0 then 0 else SumSets(exs[..|exs| - 1]) + exs[|exs| - 1].sets
  }

  lemma {:induction false} SlotsShape(name: string, n: nat)
    ensures |Slots(name, n)| == n
    ensures forall j :: 0 <= j < n ==> Slots(name, n)[j] == (name, j + 1)
  {
    if n > 0 {
      SlotsShape(name, n - 1);
    }
  }

  lemma {:induction false} PlanLength(exs: seq<Exercise>)
    ensures |Plan(exs)| == TotalSets(exs)
    decreases |exs|
  {
    if |exs| > 0 {
      PlanLength(exs[..|exs| - 1]);
      SlotsShape(exs[|exs| - 1].name, TargetSets(exs[|exs| - 1]));
    }
  }

  /** When every exercise asks for at least one set, the session logs exactly
      the entered total. */
  lemma {:induction false} TotalOfPositiveSets(exs: seq<Exercise>)
    requires forall k :: 0 <= k < |exs| ==> exs[k].sets >= 1
    ensures TotalSets(exs) == SumSets(exs)
    ensures |Plan(exs)| == SumSets(exs)
    decreases |exs|
  {
    PlanLength(exs);
    if |exs| > 0 {
      TotalOfPositiveSets(exs[..|exs| - 1]);
    }
  }

  lemma PrefixStep(exs: seq<Exercise>, i: nat)
    requires i < |exs|
    ensures Plan(exs[..i + 1]) == Plan(exs[..i]) + Slots(exs[i].name, TargetSets(exs[i]))
    ensures TotalSets(exs[..i + 1]) == TotalSets(exs[..i]) + TargetSets(exs[i])
  {
    assert exs[..i + 1][..i] == exs[..i];
  }

  lemma {:induction false} TotalSetsGrows(exs: seq<Exercise>, j: nat, k: nat)
    requires j < k <= |exs|
    ensures TotalSets(exs[..j]) < TotalSets(exs[..k])
    decreases k
  {
    PrefixStep(exs, k - 1);
    if j < k - 1 {
      TotalSetsGrows(exs, j, k - 1);
    }
  }

  /** Before the current set is logged: everything ahead of it in the plan has
      been logged, in order. */
  predicate AtSet(s: Session, rt: Routine)
  {
    && OnTrack(s, rt)
    && Trace(s.logs) == Plan(rt.exercises[..s.currentExerciseIndex])
                        + Slots(rt.exercises[s.currentExerciseIndex].name, s.currentSet - 1)
  }

  /** After the current set is logged, while resting. */
  predicate Logged(s: Session, rt: Routine)
  {
    && OnTrack(s, rt)
    && Trace(s.logs) == Plan(rt.exercises[..s.currentExerciseIndex])
                        + Slots(rt.exercises[s.currentExerciseIndex].name, s.currentSet)
  }

  lemma TraceAppend(logs: seq<SetLog>, l: SetLog)
    ensures Trace(logs + [l]) == Trace(logs) + [(l.exercise, l.setNumber)]
  {
  }

  lemma LogStep(st: AppState, rt: Routine, weight: string, reps: string, now: string)
    requires st.activeWorkout.Some? && AtSet(st.activeWorkout.value, rt)
    ensures Logged(FinishSet(st, rt, weight, reps, now).activeWorkout.value, rt)
  {
    var s := st.activeWorkout.value;
    var ex := rt.exercises[s.currentExerciseIndex];
    TraceAppend(s.logs, SetLog(ex.name, s.currentSet, weight, reps, now));
  }

  /** Advancing after a logged set either lands on the next set of the plan or,
      exactly when the whole plan has been logged, finishes the session. */
  lemma AdvanceStep(st: AppState, rt: Routine, now: string)
    requires st.activeWorkout.Some? && Logged(st.activeWorkout.value, rt)
    ensures
      var s := st.activeWorkout.value;
      var r := StopTimerAndProceed(st, rt, now);
      && (r.activeWorkout.Some? <==> |s.logs| < TotalSets(rt.exercises))
      && (r.activeWorkout.Some? ==>
            && AtSet(r.activeWorkout.value, rt)
            && r.activeWorkout.value == s.(currentExerciseIndex := r.activeWorkout.value.currentExerciseIndex,
                                           currentSet := r.activeWorkout.value.currentSet)
            && r.history == st.history)
      && (r.activeWorkout.None? ==>
            && Trace(s.logs) == Plan(rt.exercises)
            && r.history == [s.(endTime := Some(now))] + st.history)
  {
    var s := st.activeWorkout.value;
    var exs := rt.exercises;
    var i := s.currentExerciseIndex;
    var n := |exs|;
    PrefixStep(exs, i);
    PlanLength(exs[..i]);
    SlotsShape(exs[i].name, s.currentSet);
    assert |s.logs| == TotalSets(exs[..i]) + s.currentSet;
    assert exs[..n] == exs;
    if s.currentSet < exs[i].sets {
      assert TotalSets(exs[..i]) + s.currentSet < TotalSets(exs[..i + 1]);
      if i + 1 < n {
        TotalSetsGrows(exs, i + 1, n);
      }
    } else {
      assert s.currentSet == TargetSets(exs[i]);
      assert Slots(exs[i].name, s.currentSet) == Slots(exs[i].name, TargetSets(exs[i]));
      if i < n - 1 {
        TotalSetsGrows(exs, i + 1, n);
        assert exs[..i + 1][i + 1..] == [];
      }
    }
  }

  /** One set of the guided workout: log it, then end the rest (by skipping
      or by the countdown, which advance the session the same way). */
  function DoSet(st: AppState, rt: Routine, e: SetEntry): (r: AppState)
    requires Valid(st, rt) && st.activeWorkout.Some?
    ensures Valid(r, rt) && r.routines == st.routines
  {
    StopTimerAndProceed(FinishSet(st, rt, e.weight, e.reps, e.loggedAt), rt, e.advancedAt)
  }

  /** Drives a session with one entry per set until it finishes or the entries
      run out. */
  function Run(st: AppState, rt: Routine, entries: seq<SetEntry>): (r: AppState)
    requires Valid(st, rt)
    ensures Valid(r, rt) && r.routines == st.routines
    decreases |entries|
  {
    if |entries| == 0 || st.activeWorkout.None? then st
    else Run(DoSet(st, rt, entries[0]), rt, entries[1..])
  }

  /** Log `k` of the session came from entry `k - base`. */
  predicate FromEntry(l: SetLog, e: SetEntry)
  {
    l.weight == e.weight && l.reps == e.reps && l.timestamp == e.loggedAt
  }

  /** `s'` is `s` continued with one log per entry, same identity. */
  predicate Extends(s': Session, s: Session, entries: seq<SetEntry>)
  {
    && s'.routineId == s.routineId
    && s'.routineName == s.routineName
    && s'.startTime == s.startTime
    && |s'.logs| == |s.logs| + |entries|
    && s'.logs[..|s.logs|] == s.logs
    && forall k :: 0 <= k < |entries| ==> FromEntry(s'.logs[|s.logs| + k], entries[k])
  }

  lemma ExtendsTrans(s2: Session, s1: Session, s: Session, e: SetEntry, rest: seq<SetEntry>)
    requires Extends(s1, s, [e]) && Extends(s2, s1, rest)
    ensures Extends(s2, s, [e] + rest)
  {
    var entries := [e] + rest;
    assert s2.logs[..|s1.logs|][..|s.logs|] == s2.logs[..|s.logs|];
    forall k | 0 <= k < |entries|
      ensures FromEntry(s2.logs[|s.logs| + k], entries[k])
    {
      if k == 0 {
        assert s2.logs[|s.logs|] == s2.logs[..|s1.logs|][|s.logs|];
      } else {
        assert entries[k] == rest[k - 1];
      }
    }
  }

  /** An on-plan position always has at least one set left to log. */
  lemma AtSetHasRemaining(s: Session, rt: Routine)
    requires AtSet(s, rt)
    ensures |s.logs| < TotalSets(rt.exercises)
  {
    var exs := rt.exercises;
    var i := s.currentExerciseIndex;
    PrefixStep(exs, i);
    PlanLength(exs[..i]);
    SlotsShape(exs[i].name, s.currentSet - 1);
    assert exs[..|exs|] == exs;
    if i + 1 < |exs| {
      TotalSetsGrows(exs, i + 1, |exs|);
    }
  }

  /** One set of a run, from an on-plan position. */
  lemma DoSetStep(st: AppState, rt: Routine, e: SetEntry)
    requires st.activeWorkout.Some? && AtSet(st.activeWorkout.value, rt)
    ensures
      var s := st.activeWorkout.value;
      var r := DoSet(st, rt, e);
      && (r.activeWorkout.Some? <==> |s.logs| + 1 < TotalSets(rt.exercises))
      && (r.activeWorkout.Some? ==>
            && AtSet(r.activeWorkout.value, rt)
            && Extends(r.activeWorkout.value, s, [e])
            && r.history == st.history)
      && (r.activeWorkout.None? ==>
            && |r.history| == |st.history| + 1
            && r.history[1..] == st.history
            && Trace(r.history[0].logs) == Plan(rt.exercises)
            && Extends(r.history[0], s, [e])
            && r.history[0].endTime == Some(e.advancedAt))
  {
    var s := st.activeWorkout.value;
    var st1 := FinishSet(st, rt, e.weight, e.reps, e.loggedAt);
    LogStep(st, rt, e.weight, e.reps, e.loggedAt);
    var s1 := st1.activeWorkout.value;
    AdvanceStep(st1, rt, e.advancedAt);
    assert s1.logs[..|s.logs|] == s.logs;
    assert Extends(s1, s, [e]);
  }

  /** From any on-plan position, a run with no more entries than sets remain
      either stays active on plan or finishes having logged the whole plan. */
  lemma {:induction false} RunFromSet(st: AppState, rt: Routine, entries: seq<SetEntry>)
    requires st.activeWorkout.Some? && AtSet(st.activeWorkout.value, rt)
    requires |st.activeWorkout.value.logs| + |entries| <= TotalSets(rt.exercises)
    ensures
      var s := st.activeWorkout.value;
      var r := Run(st, rt, entries);
      && (|s.logs| + |entries| < TotalSets(rt.exercises) ==>
            && r.activeWorkout.Some?
            && AtSet(r.activeWorkout.value, rt)
            && Extends(r.activeWorkout.value, s, entries)
            && r.history == st.history)
      && (|s.logs| + |entries| == TotalSets(rt.exercises) ==>
            && r.activeWorkout.None?
            && |entries| > 0
            && |r.history| == |st.history| + 1
            && r.history[1..] == st.history
            && Trace(r.history[0].logs) == Plan(rt.exercises)
            && Extends(r.history[0], s, entries)
            && r.history[0].endTime == Some(entries[|entries| - 1].advancedAt))
    decreases |entries|
  {
    var s := st.activeWorkout.value;
    if |entries| == 0 {
      assert s.logs[..|s.logs|] == s.logs;
      AtSetHasRemaining(s, rt);
    } else {
      var e := entries[0];
      var st2 := DoSet(st, rt, e);
      DoSetStep(st, rt, e);
      assert entries == [e] + entries[1..];
      if st2.activeWorkout.Some? {
        var s2 := st2.activeWorkout.value;
        RunFromSet(st2, rt, entries[1..]);
        var r := Run(st2, rt, entries[1..]);
        assert r == Run(st, rt, entries);
        if r.activeWorkout.Some? {
          ExtendsTrans(r.activeWorkout.value, s2, s, e, entries[1..]);
        } else {
          ExtendsTrans(r.history[0], s2, s, e, entries[1..]);
        }
      } else {
        assert Run(st, rt, entries) == st2;
      }
    }
  }

  /** A complete guided workout: starting a routine and running one entry per
      set logs the plan in order, carries each entry's weight and reps, and
      adds exactly one session at the front of the history. */
  lemma CompleteWorkout(st: AppState, id: string, now: string, rt: Routine, entries: seq<SetEntry>)
    requires FindRoutine(st.routines, id) == Some(rt)
    requires |rt.exercises| > 0
    requires |entries| == TotalSets(rt.exercises)
    ensures
      var r := Run(StartWorkout(st, id, now), rt, entries);
      && r.activeWorkout.None?
      && r.routines == st.routines
      && |r.history| == |st.history| + 1
      && r.history[1..] == st.history
      && var done := r.history[0];
      && done.routineName == rt.name
      && done.startTime == now
      && done.endTime == Some(entries[|entries| - 1].advancedAt)
      && Trace(done.logs) == Plan(rt.exercises)
      && |done.logs| == TotalSets(rt.exercises)
      && forall k :: 0 <= k < |entries| ==> FromEntry(done.logs[k], entries[k])
  {
    var st0 := StartWorkout(st, id, now);
    var s0 := st0.activeWorkout.value;
    assert rt.exercises[..0] == [];
    assert AtSet(s0, rt);
    RunFromSet(st0, rt, entries);
  }

  /** Abandoning a workout part-way, whatever has been logged, leaves the
      history and the routines as they were. */
  lemma AbortPartWay(st: AppState, id: string, now: string, rt: Routine, entries: seq<SetEntry>)
    requires FindRoutine(st.routines, id) == Some(rt)
    requires |rt.exercises| > 0
    requires |entries| < TotalSets(rt.exercises)
    ensures
      var r := Run(StartWorkout(st, id, now), rt, entries);
      && r.activeWorkout.Some?
      && |r.activeWorkout.value.logs| == |entries|
      && ConfirmExitWorkout(r, true).history == st.history
      && ConfirmExitWorkout(r, true).routines == st.routines
      && ConfirmExitWorkout(r, true).activeWorkout.None?
  {
    var st0 := StartWorkout(st, id, now);
    assert rt.exercises[..0] == [];
    assert AtSet(st0.activeWorkout.value, rt);
    RunFromSet(st0, rt, entries);
  }
}

=== FILE: wrappers.dfy ===
/** Failure-carrying datatypes used throughout the model. */
module Wrappers {

  /** A value that may be absent: a JavaScript `undefined`/`null`/`NaN` stands for `None`. */
  datatype Option<+T> = None | Some(value: T)

  /** The outcome of an operation that can be refused with an error. */
  datatype Result<+R, +E> = Success(value: R) | Failure(error: E)
}
